=== FILE: README.md ===
# Notes: a Dafny model of the encrypted note keeper

The program keeps a list of notes in memory. Each note has a date and an encrypted title and
body, and the list is kept sorted by date. It is a console application: `Main` parses the
command line, loads the list from a JSON file, asks for the password and then runs a menu
whose actions read, add, edit and delete notes by their 1-based number.

This project models the following:

- `notes.dfy`, module `Notes`: the `Note` record (a date and two byte sequences) and
  `compareTo`, which compares dates only. Lemmas show that it is a total preorder and that
  two different notes can tie.
- `ordering.dfy`, module `Ordering`: the specification of `Collections.sort` on the list.
  `SortByDate` is an insertion sort written as functions, and `StableSort` is the same sort
  as a loop. The lemmas prove that the result is sorted and is a permutation. They prove
  that it is stable: for every date, the notes with that date keep their order
  (`WithDate`). They also prove that these three properties determine the result, so the
  model gives exactly what any stable sort gives. Further lemmas cover adding a note,
  changing a date and removing a note.
- `console.dfy`, module `Console`: the prompt loops that read lines until one is
  acceptable. They are used for the date, the title, the body and the password.
- `arguments.dfy`, module `Arguments`: `parseArgs` and its outcomes.
- `date_text.dfy`, module `DateText`: `dateToString`, i.e. `%02d.%02d.%04d` of the day,
  the month plus one and the year. `Value` is a decoder for the digits, and it recovers
  each field from the rendered text.
- `notebook.dfy`, module `Notebook`: class `NoteStore`, holding the two static fields of
  `Main` (`notesPassword`, `notes`) and one method per operation on them. Its invariant
  `Valid()` says the list is sorted between operations.

How the model represents the source:

- A date is an `int` (milliseconds, as `java.util.Date` holds it). Its order is integer
  order.
- Ciphertext is a `seq<byte>`.
- Encryption with `AesCrypt` is the parameter `encrypt: (password, plaintext) -> seq<byte>`.
  Nothing is assumed about it.
- The `dd.MM.yyyy` parser `tryParseDate` is the parameter `parse`.
- Console input is a finite list of lines. When the lines run out, `Scanner.nextLine`
  would throw, and nothing catches it. The model reports "out of input" and leaves the
  operation's state unchanged; that the process then ends unsaved is under "Left out".
- The number typed for a note (`readNumber()`) and the edit option are parameters.
- The data file is a `DataFile` value: `Missing` (no file or an empty one), `Malformed`
  (a JSON syntax error) or `Parsed(notes)`.

## Model

| member | source | states |
|---|---|---|
| `Notes.CompareTo` | src/ru/salavatdautov/Note.java:11-13 | the result is -1, 0 or 1, and it is negative, zero or positive exactly when this note's date is earlier than, equal to, or later than the other's |
| `Notes.CompareToIgnoresText` | src/ru/salavatdautov/Note.java:12 | replacing the title and body of either note never changes the comparison |
| `Notes.CompareToAntisymmetric` | src/ru/salavatdautov/Note.java:12 | compareTo(a, b) = -compareTo(b, a) |
| `Notes.CompareToTotalPreorder` | src/ru/salavatdautov/Note.java:12 | any two notes are comparable; "not after", "before" and ties are transitive |
| `Notes.DistinctNotesCanTie` | src/ru/salavatdautov/Note.java:6-12 | for every date there are two different notes with that date that compare as 0 |
| `Ordering.SortByDate` | src/ru/salavatdautov/Main.java:92 | the list after the sort has as many notes as before; the lemmas below state that it is sorted, a permutation and stable, and that it is the only such list |
| `Ordering.StableSort` | src/ru/salavatdautov/Main.java:91-93 | the sorted list is sorted by date, is a permutation of the input, keeps each date's notes in their input order, and equals `SortByDate` of the input |
| `Ordering.SortByDateSorted` | src/ru/salavatdautov/Main.java:92 | the sort's result is in non-decreasing date order |
| `Ordering.SortByDatePermutes` | src/ru/salavatdautov/Main.java:92 | the sort's result has the same notes, with the same multiplicities, as its input |
| `Ordering.SortByDateStable` | src/ru/salavatdautov/Main.java:92 | for every date, the notes with that date appear in the result in the same order as in the input |
| `Ordering.SortByDateIsStableSort` | src/ru/salavatdautov/Main.java:92 | sorted, a permutation, and stable for every date, together |
| `Ordering.StableSortUnique` | src/ru/salavatdautov/Main.java:92 | any sorted list that keeps each date's notes in the input's order is the sort's result, so the model agrees with every stable sort |
| `Ordering.SortedFixpoint` | src/ru/salavatdautov/Main.java:81-82 | sorting a list that is already sorted leaves it unchanged, so the sort before saving never reorders |
| `Ordering.AppendThenSort` | src/ru/salavatdautov/Main.java:276-277 | appending a note to a sorted list and sorting gives a sorted list one longer, with the new note added and placed after every note that already had its date |
| `Ordering.DateEditMovesOnlyThatNote` | src/ru/salavatdautov/Main.java:342-343 | changing the date of one note of a sorted list and sorting gives the other notes in their old order, with the edited note inserted at some position |
| `Ordering.RemoveKeepsSorted` | src/ru/salavatdautov/Main.java:383 | removing a note from a sorted list leaves it sorted |
| `Console.FirstAccepted` | src/ru/salavatdautov/Main.java:258-274 | the value read comes from the first acceptable line at or after the start; every line before it was rejected; nothing is read when no later line is acceptable |
| `Console.ReadUntil` | src/ru/salavatdautov/Main.java:265-268 | the prompt loop returns exactly the first acceptable line and the position after it |
| `Console.RequiredText` | src/ru/salavatdautov/Main.java:265-268 | the `isEmpty()` loop test of the title, body and password prompts (also lines 114, 271, 347 and 355): a line is accepted exactly when it is not empty, and then it is taken as typed |
| `Console.RequiredDate` | src/ru/salavatdautov/Main.java:258-262 | the date prompt's loop test (the line is empty, or the parser gives no date) (also line 337): the empty line is rejected, and any other line is accepted exactly when the parser gives a date, which is then the value read |
| `Console.RequiredTextRead` | src/ru/salavatdautov/Main.java:265-268 | a title, body or password that was read is non-empty and is the line as typed |
| `Console.RequiredDateRead` | src/ru/salavatdautov/Main.java:258-262 | a date that was read is what the parser made of a non-empty line |
| `Arguments.ParseArgs` | src/ru/salavatdautov/Main.java:42-57 | `[]` gives no password; `["-h"]` gives help; `["-p", pw]` gives the password pw; any other single argument gives "Not enough arguments."; more than two give "Too many arguments."; two arguments whose first is not "-p" give "Undefined arguments."; each case holds in both directions |
| `DateText.PadDigits` | src/ru/salavatdautov/Main.java:285 | `%0<w>d` of n: only digits; their decimal value is n; at least w characters; exactly w when n < 10^w; no leading zero beyond the padding |
| `DateText.DateToString` | src/ru/salavatdautov/Main.java:282-286 | the text has '.' at positions 2 and 5. Its first two digits decode to the day, the next two to the month plus one, and the rest to the year. It is 10 characters long for years up to 9999, and a longer year has no leading zero, as `%04d` writes it |
| `Notebook.ReadDraft` | src/ru/salavatdautov/Main.java:256-274 | a new note's title and body are non-empty, the input stops after at least one line, and the body is the last line read, as typed |
| `Notebook.ReadDraftLines` | src/ru/salavatdautov/Main.java:256-274 | the date is what the parser made of a non-empty line, the title is a later line as typed, and both come before the body line |
| `Notebook.NoteStore.constructor` | src/ru/salavatdautov/Main.java:26-27 | the program starts with no password and an empty, sorted list |
| `Notebook.NoteStore.SortNotes` | src/ru/salavatdautov/Main.java:91-93 | the list becomes its stable sort by date: sorted, the same notes, and each date's notes in their old order |
| `Notebook.NoteStore.ReadFromFile` | src/ru/salavatdautov/Main.java:95-109 | the list becomes the file's notes when the file parsed, and stays as it was when the file is missing, empty or malformed; the list is then sorted |
| `Notebook.NoteStore.WriteToFile` | src/ru/salavatdautov/Main.java:81-89 | the list is sorted before it is written; with the sort invariant this leaves it unchanged, and the written list is the list |
| `Notebook.NoteStore.ReadPassword` | src/ru/salavatdautov/Main.java:111-119 | a password that was already set is kept; otherwise the password becomes the first non-empty line, or nothing changes when there is none |
| `Notebook.NoteStore.Start` | src/ru/salavatdautov/Main.java:29-40 | help exits with 0 and a bad command line with -1, both before anything is loaded; otherwise the password from the arguments is taken, the file's notes are loaded and sorted, and an empty password is prompted for; when no non-empty line is left it stays empty |
| `Notebook.NoteStore.ShowNoteDetails` | src/ru/salavatdautov/Main.java:237-250 | a note is shown exactly when its number is between 1 and the list's length, and then it is the note at that number minus one; nothing changes |
| `Notebook.NoteStore.NewNote` | src/ru/salavatdautov/Main.java:252-280 | when the three prompts succeed, the list becomes the stable sort of the old list plus the new note, with both texts encrypted; the list is one longer, still sorted, and the new note is the last of its date. When the input runs out the list is unchanged |
| `Notebook.NoteStore.EditNote` | src/ru/salavatdautov/Main.java:325-369 | a number outside 1..length is reported and changes nothing. Option 1 replaces that note's date and re-sorts: title and body are kept and the other notes keep their order. Options 2 and 3 replace only the title or the body with the encryption of a non-empty line, without a re-sort. Any other option changes nothing. The list stays sorted |
| `Notebook.NoteStore.DeleteNote` | src/ru/salavatdautov/Main.java:378-390 | a note is removed exactly when its number is between 1 and the length. The list is then one shorter, the notes before it are untouched and every later note moves down by one. A wrong number changes nothing. The list stays sorted |

## Left out

- Encryption and decryption (`AesCrypt`, `encryptString`, `decryptString`): this is a
  library whose source is not part of this model. Encryption is a parameter of the
  operations that store ciphertext, and decryption is not modelled. No round-trip or
  wrong-password property can be stated. A failed encryption in `encryptString` stores
  whatever bytes were produced; in the model that is part of what `encrypt` returns.
- `encrypt` is one function for a whole operation, while `AesCrypt` uses a fresh salt and
  IV on every call. The model does not capture that two encryptions of the same text
  differ.
- Running out of console input: in the source the uncaught `NoSuchElementException` ends
  the process before `writeToFile` is reached, so every change of the session is lost. The
  model stops at that point with an "out of input" outcome and the state of that moment; it
  does not model that the session's changes are then never saved.
- JSON reading and writing (Gson) and file I/O: the file's content is the `DataFile`
  parameter, and `WriteToFile` returns the list it would write. The `exit(-1)` on an I/O
  error is left out.
- A file that Gson reads as `null` (whitespace only) is not modelled. The source would then
  sort a `null` list and fail.
- Notebook.NoteStore.ReadFromFile: a file whose notes lack a date, title or body (or hold
  `null` there) is not modelled. Gson reads it without error and leaves those fields `null`,
  and a `Note` in the model always has all three. The source then crashes with an uncaught
  `NullPointerException`. With two or more such notes it crashes in `compareTo` during the
  sort at load. Otherwise it crashes later, when the date is formatted or a text is decrypted
  for display.
- `tryParseDate` (`SimpleDateFormat`, non-lenient `dd.MM.yyyy`) is the `parse` parameter.
- The `GregorianCalendar` conversion inside `dateToString` is left out. `DateToString` takes
  the calendar's day, 0-based month and year as given, and assumes ASCII digits in
  `String.format`.
- The menu loop and terminal handling (`mainLoop`, `selectAction`, `printMenu`,
  `printHelp`, `readNumber`, `pause`, `clearScreen`, `getOS`, `System.exit`): console
  plumbing. Their numbers and lines are parameters of the operations. `exit(0, true)`,
  which saves, is `WriteToFile`.
- The listing view `showAllNotes` prints every note's date and decrypted title and changes
  nothing. It is left out with the rest of the printing.
- Java `int` arithmetic on the entered note number: `number - 1` wraps for
  `Integer.MIN_VALUE`. The model uses
  unbounded integers. Both give a position outside the list, so the outcome is the same.
- Each operation, and each number read by `readNumber`, creates its own `Scanner` over
  `System.in`, and a `Scanner` may buffer input that the next one never sees. The model reads every line exactly once and
  in order.

=== FILE: arguments.dfy ===
/** `parseArgs`: what the command line asks for. */
module Arguments {

  /** Carry on with the given password (empty when none was given), print help, or stop with a message. */
  datatype Outcome = Proceed(password: string) | ShowHelp | Invalid(message: string)

  const NotEnough := "Not enough arguments."
  const TooMany := "Too many arguments."
  const Undefined := "Undefined arguments."

  function ParseArgs(args: seq<string>): (r: Outcome)
    ensures r.ShowHelp? <==> args == ["-h"]
    ensures r.Proceed? <==> args == [] || (|args| == 2 && args[0] == "-p")
    ensures r.Proceed? ==> r.password == if args == [] then "" else args[1]
    ensures r == Invalid(NotEnough) <==> |args| == 1 && args[0] != "-h"
    ensures r == Invalid(TooMany) <==> |args| > 2
    ensures r == Invalid(Undefined) <==> |args| == 2 && args[0] != "-p"
    ensures r.Invalid? ==> r.message in {NotEnough, TooMany, Undefined}
  {
    if |args| == 1 && args[0] == "-h" then ShowHelp
    else if |args| == 1 then Invalid(NotEnough)
    else if |args| > 2 then Invalid(TooMany)
    else if |args| == 2 && args[0] == "-p" then Proceed(args[1])
    else if |args| == 2 then Invalid(Undefined)
    else Proceed("")
  }
}

=== FILE: console.dfy ===
/**
  The prompt loops of `Main`: read console lines until one is acceptable.
  Console input is a finite list of lines; running out of lines is where
  `Scanner.nextLine` would throw.
*/
module Console {
  import opened Wrappers
  import opened Notes

  /** A value taken from the console, and the index of the first line not yet read. */
  datatype Read<T> = Read(value: T, next: nat)

  /** The first line at or after `from` that `accept` turns into a value. */
  function FirstAccepted<T>(lines: seq<string>, from: nat, accept: string -> Option<T>): (r: Option<Read<T>>)
    ensures r.None? <==> forall i :: from <= i < |lines| ==> accept(lines[i]).None?
    ensures r.Some? ==> from < r.value.next <= |lines|
                        && accept(lines[r.value.next - 1]) == Some(r.value.value)
                        && forall i :: from <= i < r.value.next - 1 ==> accept(lines[i]).None?
    decreases |lines| - from
  {
    if from >= |lines| then None
    else match accept(lines[from])
      case Some(v) => Some(Read(v, from + 1))
      case None => FirstAccepted(lines, from + 1, accept)
  }

  /** The `while` loops that prompt again until the line read is acceptable. */
  method ReadUntil<T>(lines: seq<string>, from: nat, accept: string -> Option<T>) returns (r: Option<Read<T>>)
    ensures r == FirstAccepted(lines, from, accept)
  {
    var i := from;
    while i < |lines|
      invariant from <= i
      invariant FirstAccepted(lines, i, accept) == FirstAccepted(lines, from, accept)
      decreases |lines| - i
    {
      var v := accept(lines[i]);
      if v.Some? {
        return Some(Read(v.value, i + 1));
      }
      i := i + 1;
    }
    return None;
  }

  /** A title, a body or a password: any line that is not empty. */
  function RequiredText(line: string): (r: Option<string>)
    ensures r.Some? <==> line != ""
    ensures r.Some? ==> r.value == line
  {
    if line == "" then None else Some(line)
  }

  /** A date: a line that is not empty and that `parse` (the `dd.MM.yyyy` parser) accepts. */
  function RequiredDate(parse: string -> Option<Date>): (accept: string -> Option<Date>)
    ensures accept("").None?
    ensures forall line {:trigger parse(line)} :: line != "" ==> accept(line) == parse(line)
  {
    line => if line == "" then None else parse(line)
  }

  /** What the text prompts give back is never empty, and it is the line itself. */
  lemma RequiredTextRead(lines: seq<string>, from: nat)
    ensures var r := FirstAccepted(lines, from, RequiredText);
            r.Some? ==> r.value.value != "" && r.value.value == lines[r.value.next - 1]
  {
  }

  /** The date prompt gives back what `parse` made of a non-empty line. */
  lemma RequiredDateRead(lines: seq<string>, from: nat, parse: string -> Option<Date>)
    ensures var r := FirstAccepted(lines, from, RequiredDate(parse));
            r.Some? ==> lines[r.value.next - 1] != "" && parse(lines[r.value.next - 1]) == Some(r.value.value)
  {
  }
}

=== FILE: date_text.dfy ===
/**
  `dateToString`: a calendar date as `DD.MM.YYYY`, the `String.format` pattern
  `%02d.%02d.%04d` applied to the day of the month, the 0-based month plus one
  and the year.
*/
module DateText {

  predicate IsDigit(c: char)
  {
    '0' <= c <= '9'
  }

  predicate AllDigits(s: string)
  {
    forall i :: 0 <= i < |s| ==> IsDigit(s[i])
  }

  function DigitChar(n: nat): (c: char)
    requires n < 10
    ensures IsDigit(c) && c as int - '0' as int == n
  {
    ('0' as int + n) as char
  }

  /** The number a string of decimal digits denotes: the decoder for what is rendered here. */
  function Value(s: string): nat
    requires AllDigits(s)
  {
    if s == [] then 0 else Value(s[..|s| - 1]) * 10 + (s[|s| - 1] as int - '0' as int)
  }

  function Pow10(k: nat): (p: nat)
    ensures p >= 1
  {
    if k == 0 then 1 else 10 * Pow10(k - 1)
  }

  /**
    `%0<width>d` of a non-negative number: its decimal digits, with zeros in front up to
    `width` characters; a number too wide for `width` is written in full.
  */
  function PadDigits(n: nat, width: nat): (r: string)
    ensures AllDigits(r) && Value(r) == n
    ensures |r| >= width && |r| >= 1
    ensures n < Pow10(width) && width >= 1 ==> |r| == width
    ensures |r| > width && |r| > 1 ==> r[0] != '0'
  {
    if n < 10 && width <= 1 then [DigitChar(n)]
    else
      var high := PadDigits(n / 10, if width == 0 then 0 else width - 1);
      assert (high + [DigitChar(n % 10)])[..|high|] == high;
      high + [DigitChar(n % 10)]
  }

  /**
    The date as `dd.MM.yyyy`. `month` is the 0-based `Calendar.MONTH`; the day, month and
    year are the calendar's, so the day is 1..31, the month 0..11 and the year at least 1.
  */
  function DateToString(day: nat, month: nat, year: nat): (r: string)
    requires 1 <= day <= 31 && month <= 11 && 1 <= year
    ensures |r| >= 10 && r[2] == '.' && r[5] == '.'
    ensures year <= 9999 ==> |r| == 10
    ensures AllDigits(r[..2]) && Value(r[..2]) == day
    ensures AllDigits(r[3..5]) && Value(r[3..5]) == month + 1
    ensures AllDigits(r[6..]) && Value(r[6..]) == year
    ensures |r| > 10 ==> r[6] != '0'
  {
    var dd, mm, yyyy := PadDigits(day, 2), PadDigits(month + 1, 2), PadDigits(year, 4);
    assert Pow10(2) == 100 && Pow10(4) == 10000;
    var r := dd + "." + mm + "." + yyyy;
    assert r[..2] == dd && r[3..5] == mm && r[6..] == yyyy;
    r
  }
}

=== FILE: notebook.dfy ===
/**
  The state `Main` keeps for the whole run, the password and the note list, and the
  operations of the menu that change or read the list.
*/
module Notebook {
  import opened Wrappers
  import opened Notes
  import opened Ordering
  import opened Console
  import Arguments

  /** `AesCrypt` encryption of a plaintext under a password; nothing is assumed about it. */
  type Encryptor = (string, string) -> seq<byte>

  /** `tryParseDate`: the `dd.MM.yyyy` parser, which yields nothing for a line it rejects. */
  type DateParser = string -> Option<Date>

  /** What the data file gave at start-up. */
  datatype DataFile =
    | Missing            // no file, or an empty one
    | Malformed          // the JSON could not be read as a list of notes
    | Parsed(notes: seq<Note>)

  /** The answers to the three prompts of "Add new note", and where the input stops. */
  datatype Draft = Draft(date: Date, title: string, body: string, next: nat)

  datatype EditOutcome = WrongNumber | Unchanged | Edited(next: nat) | EditOutOfInput

  datatype StartOutcome = Exit(code: int) | Ready(next: nat) | StartOutOfInput

  /** The date, title and body that "Add new note" reads from line `from` on, in that order. */
  function ReadDraft(input: seq<string>, from: nat, parse: DateParser): (r: Option<Draft>)
    ensures r.Some? ==> r.value.title != "" && r.value.body != "" && from < r.value.next <= |input|
    ensures r.Some? ==> input[r.value.next - 1] == r.value.body
  {
    match FirstAccepted(input, from, RequiredDate(parse))
    case None => None
    case Some(d) =>
      match FirstAccepted(input, d.next, RequiredText)
      case None => None
      case Some(t) =>
        match FirstAccepted(input, t.next, RequiredText)
        case None => None
        case Some(b) =>
          assert input[b.next - 1] == b.value;
          Some(Draft(d.value, t.value, b.value, b.next))
  }

  /**
    Where a draft comes from: the date is what `parse` made of a non-empty line, the title is
    a later line as typed, and the body is the last line read, as typed.
  */
  lemma ReadDraftLines(input: seq<string>, from: nat, parse: DateParser)
    ensures var r := ReadDraft(input, from, parse);
            r.Some? ==> exists i, j :: from <= i < j < r.value.next - 1 && input[i] != ""
                          && parse(input[i]) == Some(r.value.date) && input[j] == r.value.title
  {
    var d := FirstAccepted(input, from, RequiredDate(parse));
    if d.Some? {
      var t := FirstAccepted(input, d.value.next, RequiredText);
      if t.Some? {
        var b := FirstAccepted(input, t.value.next, RequiredText);
        if b.Some? {
          var i, j := d.value.next - 1, t.value.next - 1;
          assert input[i] != "" && parse(input[i]) == Some(d.value.value);
          assert input[j] == t.value.value;
        }
      }
    }
  }

  class NoteStore {
    var password: string
    var notes: seq<Note>

    /** Between operations the list is sorted by date. */
    ghost predicate Valid()
      reads this
    {
      Sorted(notes)
    }

    /** The static fields as the program starts: no password and no notes. */
    constructor ()
      ensures Valid() && password == "" && notes == []
    {
      password := "";
      notes := [];
    }

    /** `sortNotes`: a stable sort of the list by date. */
    method SortNotes()
      modifies this`notes
      ensures notes == SortByDate(old(notes)) && Valid()
      ensures multiset(notes) == multiset(old(notes))
      ensures forall d :: WithDate(notes, d) == WithDate(old(notes), d)
    {
      notes := StableSort(notes);
    }

    /**
      `readFromFile`: take the notes the file holds, keep the list as it was when the file
      is missing, empty or not valid JSON, and sort.
    */
    method ReadFromFile(file: DataFile)
      modifies this`notes
      ensures Valid()
      ensures notes == SortByDate(if file.Parsed? then file.notes else old(notes))
    {
      if file.Parsed? {
        notes := file.notes;
      }
      SortNotes();
    }

    /** `writeToFile`: sort, then hand the list to the JSON writer. The sort changes nothing. */
    method WriteToFile() returns (written: seq<Note>)
      requires Valid()
      modifies this`notes
      ensures Valid() && notes == SortByDate(old(notes)) && notes == old(notes)
      ensures written == notes
    {
      SortedFixpoint(notes);
      SortNotes();
      written := notes;
    }

    /** `readPassword`: when no password was given, prompt until a non-empty line is entered. */
    method ReadPassword(input: seq<string>, from: nat) returns (next: Option<nat>)
      modifies this`password
      ensures old(password) != "" ==> password == old(password) && next == Some(from)
      ensures old(password) == "" ==>
        match FirstAccepted(input, from, RequiredText)
        case None => password == old(password) && next.None?
        case Some(r) => password == r.value && password != "" && next == Some(r.next)
    {
      if password == "" {
        var r := ReadUntil(input, from, RequiredText);
        if r.None? {
          return None;
        }
        password := r.value.value;
        next := Some(r.value.next);
      } else {
        next := Some(from);
      }
    }

    /**
      `main` up to the menu loop: read the arguments, stop on help (status 0) or on a bad
      command line (status -1), otherwise take the password, load the notes and ask for the
      password if there is still none.
    */
    method Start(args: seq<string>, file: DataFile, input: seq<string>) returns (outcome: StartOutcome)
      requires Valid() && password == "" && notes == []
      modifies this
      ensures Valid()
      ensures match Arguments.ParseArgs(args)
        case ShowHelp => outcome == Exit(0) && password == "" && notes == []
        case Invalid(_) => outcome == Exit(-1) && password == "" && notes == []
        case Proceed(pw) =>
          && notes == SortByDate(if file.Parsed? then file.notes else [])
          && (pw != "" ==> password == pw && outcome == Ready(0))
          && (pw == "" ==> match FirstAccepted(input, 0, RequiredText)
                           case None => outcome == StartOutOfInput && password == ""
                           case Some(r) => password == r.value && outcome == Ready(r.next))
    {
      var parsed := Arguments.ParseArgs(args);
      match parsed {
        case ShowHelp => return Exit(0);
        case Invalid(_) => return Exit(-1);
        case Proceed(pw) =>
          password := pw;
          ReadFromFile(file);
          var next := ReadPassword(input, 0);
          if next.None? {
            return StartOutOfInput;
          }
          return Ready(next.value);
      }
    }

    /** "Details of note": note number `number` (1-based), or nothing when there is none. */
    method ShowNoteDetails(number: int) returns (shown: Option<Note>)
      ensures shown.Some? <==> 1 <= number <= |notes|
      ensures shown.Some? ==> shown.value == notes[number - 1]
    {
      var position := number - 1;
      if 0 <= position < |notes| {
        shown := Some(notes[position]);
      } else {
        shown := None;
      }
    }

    /**
      `newNote`: prompt for a date, a title and a body (each until acceptable), encrypt the
      two texts, append the note and sort.
    */
    method NewNote(input: seq<string>, from: nat, parse: DateParser, encrypt: Encryptor) returns (next: Option<nat>)
      requires Valid()
      modifies this`notes
      ensures Valid()
      ensures match ReadDraft(input, from, parse)
        case None => notes == old(notes) && next.None?
        case Some(d) =>
          // the stored note: the typed date, and both texts encrypted under the password
          var n := Note(d.date, encrypt(password, d.title), encrypt(password, d.body));
          notes == SortByDate(old(notes) + [n]) && next == Some(d.next)
      ensures match ReadDraft(input, from, parse)
        case None => true
        case Some(d) =>
          // one note more, and it comes after every note that already had its date
          var n := Note(d.date, encrypt(password, d.title), encrypt(password, d.body));
          && |notes| == |old(notes)| + 1
          && multiset(notes) == multiset(old(notes)) + multiset{n}
          && WithDate(notes, d.date) == WithDate(old(notes), d.date) + [n]
    {
      var date := ReadUntil(input, from, RequiredDate(parse));
      if date.None? {
        return None;
      }
      var title := ReadUntil(input, date.value.next, RequiredText);
      if title.None? {
        return None;
      }
      var body := ReadUntil(input, title.value.next, RequiredText);
      if body.None? {
        return None;
      }
      ghost var draft := Draft(date.value.value, title.value.value, body.value.value, body.value.next);
      assert ReadDraft(input, from, parse) == Some(draft);
      var note := Note(date.value.value, encrypt(password, title.value.value), encrypt(password, body.value.value));
      ghost var before := notes;
      AppendThenSort(before, note);
      notes := notes + [note];
      SortNotes();
      assert notes == SortByDate(before + [note]);
      next := Some(body.value.next);
    }

    /**
      `editNote`: for note number `number` (1-based) and field `option` (1 date, 2 title,
      3 body, anything else nothing), prompt for the new value and store it. A wrong number
      is caught before anything is read or changed.
    */
    method EditNote(number: int, option: int, input: seq<string>, from: nat, parse: DateParser, encrypt: Encryptor)
      returns (outcome: EditOutcome)
      requires Valid()
      modifies this`notes
      ensures Valid()
      ensures outcome == WrongNumber <==> !(1 <= number <= |old(notes)|)
      ensures outcome.Edited? || outcome == EditOutOfInput ==> option in {1, 2, 3}
      ensures !outcome.Edited? ==> notes == old(notes)
      ensures outcome.Edited? ==> var p := number - 1;
        match option
        case 1 =>
          var r := FirstAccepted(input, from, RequiredDate(parse));
          r.Some? && r.value.next == outcome.next
          && notes == SortByDate(old(notes)[p := old(notes)[p].(date := r.value.value)])
        case 2 =>
          var r := FirstAccepted(input, from, RequiredText);
          r.Some? && r.value.next == outcome.next
          && notes == old(notes)[p := old(notes)[p].(title := encrypt(password, r.value.value))]
        case _ =>
          var r := FirstAccepted(input, from, RequiredText);
          r.Some? && r.value.next == outcome.next
          && notes == old(notes)[p := old(notes)[p].(body := encrypt(password, r.value.value))]
      ensures outcome.Edited? && option == 1 ==>
        // the edited note keeps its title and body; the others keep their order
        var p := number - 1;
        var rest := old(notes)[..p] + old(notes)[p + 1..];
        exists q :: 0 <= q <= |rest| && |notes| == |rest| + 1
                    && notes == rest[..q] + [notes[q]] + rest[q..]
                    && notes[q] == old(notes)[p].(date := notes[q].date)
      ensures option in {1, 2, 3} && 1 <= number <= |old(notes)| ==>
        (outcome.Edited? <==> if option == 1 then FirstAccepted(input, from, RequiredDate(parse)).Some?
                              else FirstAccepted(input, from, RequiredText).Some?)
    {
      var position := number - 1;
      if !(0 <= position < |notes|) {
        return WrongNumber;
      }
      if option == 1 {
        var date := ReadUntil(input, from, RequiredDate(parse));
        if date.None? {
          return EditOutOfInput;
        }
        DateEditMovesOnlyThatNote(notes, position, date.value.value);
        notes := notes[position := notes[position].(date := date.value.value)];
        SortNotes();
        outcome := Edited(date.value.next);
      } else if option == 2 || option == 3 {
        var text := ReadUntil(input, from, RequiredText);
        if text.None? {
          return EditOutOfInput;
        }
        var cipher := encrypt(password, text.value.value);
        var note := notes[position];
        if option == 2 {
          note := note.(title := cipher);
        } else {
          note := note.(body := cipher);
        }
        notes := notes[position := note];
        outcome := Edited(text.value.next);
      } else {
        outcome := Unchanged;
      }
    }

    /** `deleteNote`: remove note number `number` (1-based); a wrong number changes nothing. */
    method DeleteNote(number: int) returns (removed: bool)
      requires Valid()
      modifies this`notes
      ensures Valid()
      ensures removed <==> 1 <= number <= |old(notes)|
      ensures !removed ==> notes == old(notes)
      ensures removed ==> |notes| == |old(notes)| - 1
      ensures removed ==> forall i :: 0 <= i < number - 1 ==> notes[i] == old(notes)[i]
      ensures removed ==> forall i :: number - 1 <= i < |notes| ==> notes[i] == old(notes)[i + 1]
    {
      var position := number - 1;
      if 0 <= position < |notes| {
        RemoveKeepsSorted(notes, position);
        notes := notes[..position] + notes[position + 1..];
        removed := true;
      } else {
        removed := false;
      }
    }
  }
}

=== FILE: notes.dfy ===
/**
  The `Note` record: a date and the encrypted title and body, ordered by date only.
*/
module Notes {

  /** One byte of ciphertext (a Java `byte`, read as its unsigned value). */
  newtype byte = x: int | 0 <= x < 256

  /** A `java.util.Date`: milliseconds since the epoch, ordered as integers. */
  type Date = int

  /** A note carries exactly three pieces of state: its date and the ciphertexts of its title and body. */
  datatype Note = Note(date: Date, title: seq<byte>, body: seq<byte>)

  /** `Note.compareTo`, which hands over to `Date.compareTo` on the two dates. */
  function CompareTo(a: Note, b: Note): (r: int)
    ensures -1 <= r <= 1
    ensures r < 0 <==> a.date < b.date
    ensures r == 0 <==> a.date == b.date
    ensures r > 0 <==> a.date > b.date
  {
    if a.date < b.date then -1 else if a.date == b.date then 0 else 1
  }

  /** Title and body never take part in the comparison. */
  lemma CompareToIgnoresText(a: Note, b: Note, aTitle: seq<byte>, aBody: seq<byte>, bTitle: seq<byte>, bBody: seq<byte>)
    ensures CompareTo(a.(title := aTitle, body := aBody), b.(title := bTitle, body := bBody)) == CompareTo(a, b)
  {
  }

  /** Swapping the operands negates the result. */
  lemma CompareToAntisymmetric(a: Note, b: Note)
    ensures CompareTo(a, b) == -CompareTo(b, a)
  {
  }

  /** The comparison is a total preorder: total, and transitive for "not after" and for ties. */
  lemma CompareToTotalPreorder(a: Note, b: Note, c: Note)
    ensures CompareTo(a, b) <= 0 || CompareTo(b, a) <= 0
    ensures CompareTo(a, b) <= 0 && CompareTo(b, c) <= 0 ==> CompareTo(a, c) <= 0
    ensures CompareTo(a, b) < 0 && CompareTo(b, c) < 0 ==> CompareTo(a, c) < 0
    ensures CompareTo(a, b) == 0 && CompareTo(b, c) == 0 ==> CompareTo(a, c) == 0
  {
  }

  /** Two different notes can tie, which is what makes the stability of the sort observable. */
  lemma DistinctNotesCanTie(d: Date)
    ensures exists a: Note, b: Note :: a != b && a.date == d && CompareTo(a, b) == 0
  {
    var a := Note(d, [], []);
    var b := Note(d, [0], []);
    assert a != b && CompareTo(a, b) == 0;
  }
}

=== FILE: ordering.dfy ===
/**
  `Collections.sort` on the note list: a stable sort by `Note.compareTo`.
  The specification is an insertion sort written as functions; the lemmas show
  that its result is sorted, is a permutation of its input, keeps notes that
  share a date in their original order, and is the only sequence with those
  three properties.
*/
module Ordering {
  import opened Notes

  /** Non-decreasing dates. */
  predicate Sorted(s: seq<Note>)
  {
    forall i, j :: 0 <= i < j < |s| ==> s[i].date <= s[j].date
  }

  /** The notes of `s` dated `d`, in their order in `s`. */
  function WithDate(s: seq<Note>, d: Date): seq<Note>
  {
    if s == [] then []
    else WithDate(s[..|s| - 1], d) + (if s[|s| - 1].date == d then [s[|s| - 1]] else [])
  }

  /** Puts `x` after every note of `s` that is not later than it. */
  function Insert(s: seq<Note>, x: Note): (r: seq<Note>)
    ensures |r| == |s| + 1
  {
    if s == [] || CompareTo(s[|s| - 1], x) <= 0 then s + [x]
    else Insert(s[..|s| - 1], x) + [s[|s| - 1]]
  }

  /** The note list after a stable sort by date. */
  function SortByDate(s: seq<Note>): (r: seq<Note>)
    ensures |r| == |s|
  {
    if s == [] then [] else Insert(SortByDate(s[..|s| - 1]), s[|s| - 1])
  }

  // The three functions above, unfolded once on a list written as `init + [last]`.

  lemma WithDateSnoc(init: seq<Note>, last: Note, d: Date)
    ensures WithDate(init + [last], d) == WithDate(init, d) + (if last.date == d then [last] else [])
    ensures last.date != d ==> WithDate(init + [last], d) == WithDate(init, d)
  {
    assert (init + [last])[..|init|] == init;
  }

  lemma InsertSnocLater(init: seq<Note>, last: Note, x: Note)
    requires last.date > x.date
    ensures Insert(init + [last], x) == Insert(init, x) + [last]
  {
    assert (init + [last])[..|init|] == init;
  }

  lemma SortByDateSnoc(init: seq<Note>, last: Note)
    ensures SortByDate(init + [last]) == Insert(SortByDate(init), last)
  {
    assert (init + [last])[..|init|] == init;
  }

  lemma {:induction false} WithDateConcat(a: seq<Note>, b: seq<Note>, d: Date)
    ensures WithDate(a + b, d) == WithDate(a, d) + WithDate(b, d)
  {
    if b == [] {
      assert a + b == a;
    } else {
      var b', y := b[..|b| - 1], b[|b| - 1];
      assert b == b' + [y] && a + b == (a + b') + [y];
      WithDateConcat(a, b', d);
      WithDateSnoc(a + b', y, d);
      WithDateSnoc(b', y, d);
    }
  }

  /** A note dated `d` is in `s` whenever the notes of `s` dated `d` are not none. */
  lemma {:induction false} WithDateMembers(s: seq<Note>, d: Date)
    ensures forall x :: x in WithDate(s, d) ==> x in s && x.date == d
  {
    if s != [] {
      var init, last := s[..|s| - 1], s[|s| - 1];
      assert s == init + [last];
      WithDateMembers(init, d);
      WithDateSnoc(init, last, d);
    }
  }

  /** Insertion adds exactly `x`: the result is `s` with `x` spliced in at some position. */
  lemma {:induction false} InsertSplits(s: seq<Note>, x: Note) returns (q: nat)
    ensures q <= |s| && Insert(s, x) == s[..q] + [x] + s[q..]
  {
    if s == [] || CompareTo(s[|s| - 1], x) <= 0 {
      q := |s|;
      assert Insert(s, x) == s[..|s|] + [x] + s[|s|..];
    } else {
      var init, last := s[..|s| - 1], s[|s| - 1];
      assert s == init + [last];
      InsertSnocLater(init, last, x);
      q := InsertSplits(init, x);
      assert init[..q] == s[..q];
      assert init[q..] + [last] == s[q..];
      assert Insert(s, x) == s[..q] + [x] + s[q..];
    }
  }

  lemma InsertPermutes(s: seq<Note>, x: Note)
    ensures multiset(Insert(s, x)) == multiset(s) + multiset{x}
    ensures |Insert(s, x)| == |s| + 1
  {
    var q := InsertSplits(s, x);
    assert s == s[..q] + s[q..];
  }

  lemma {:induction false} InsertSorted(s: seq<Note>, x: Note)
    requires Sorted(s)
    ensures Sorted(Insert(s, x))
  {
    if s == [] || CompareTo(s[|s| - 1], x) <= 0 {
    } else {
      var init, last := s[..|s| - 1], s[|s| - 1];
      assert s == init + [last];
      InsertSnocLater(init, last, x);
      InsertSorted(init, x);
      var r := Insert(init, x);
      InsertPermutes(init, x);
      forall k | 0 <= k < |r|
        ensures r[k].date <= last.date
      {
        assert r[k] in multiset(r);
        if r[k] != x {
          assert r[k] in multiset(init);
        }
      }
    }
  }

  lemma {:induction false} InsertStable(s: seq<Note>, x: Note, d: Date)
    ensures WithDate(Insert(s, x), d) == WithDate(s + [x], d)
  {
    if s == [] || CompareTo(s[|s| - 1], x) <= 0 {
    } else {
      var init, last := s[..|s| - 1], s[|s| - 1];
      assert s == init + [last];
      InsertSnocLater(init, last, x);
      InsertStable(init, x, d);
      WithDateSnoc(Insert(init, x), last, d);
      WithDateSnoc(init, x, d);
      WithDateSnoc(init, last, d);
      WithDateSnoc(s, x, d);
      // `last` is later than `x`, so at most one of them is dated `d`
    }
  }

  lemma {:induction false} SortByDateSorted(s: seq<Note>)
    ensures Sorted(SortByDate(s))
  {
    if s != [] {
      var init, last := s[..|s| - 1], s[|s| - 1];
      assert s == init + [last];
      SortByDateSnoc(init, last);
      SortByDateSorted(init);
      InsertSorted(SortByDate(init), last);
    }
  }

  lemma {:induction false} SortByDatePermutes(s: seq<Note>)
    ensures multiset(SortByDate(s)) == multiset(s)
    ensures |SortByDate(s)| == |s|
  {
    if s != [] {
      var init, last := s[..|s| - 1], s[|s| - 1];
      assert s == init + [last];
      SortByDateSnoc(init, last);
      SortByDatePermutes(init);
      InsertPermutes(SortByDate(init), last);
    }
  }

  /** Stability: notes that share a date keep their relative order. */
  lemma {:induction false} SortByDateStable(s: seq<Note>, d: Date)
    ensures WithDate(SortByDate(s), d) == WithDate(s, d)
  {
    if s != [] {
      var init, last := s[..|s| - 1], s[|s| - 1];
      assert s == init + [last];
      SortByDateSnoc(init, last);
      SortByDateStable(init, d);
      InsertStable(SortByDate(init), last, d);
      WithDateSnoc(SortByDate(init), last, d);
      WithDateSnoc(init, last, d);
    }
  }

  /** Sorting a list that is already sorted leaves it as it is. */
  lemma {:induction false} SortedFixpoint(s: seq<Note>)
    requires Sorted(s)
    ensures SortByDate(s) == s
  {
    if s != [] {
      var init, last := s[..|s| - 1], s[|s| - 1];
      assert s == init + [last];
      SortByDateSnoc(init, last);
      SortedFixpoint(init);
    }
  }

  lemma {:induction false} WithDateHasEach(s: seq<Note>, i: int)
    requires 0 <= i < |s|
    ensures s[i] in WithDate(s, s[i].date)
  {
    var init := s[..|s| - 1];
    if i < |s| - 1 {
      WithDateHasEach(init, i);
      assert init[i] == s[i];
    }
    WithDateConcat(init, [s[|s| - 1]], s[i].date);
    assert init + [s[|s| - 1]] == s;
  }

  /** In a sorted list no note is later than the last one. */
  lemma MemberNotAfterLast(s: seq<Note>, x: Note)
    requires Sorted(s) && x in s
    ensures x.date <= s[|s| - 1].date
  {
    var k :| 0 <= k < |s| && s[k] == x;
  }

  lemma SortedPrefix(s: seq<Note>, k: int)
    requires Sorted(s) && 0 <= k <= |s|
    ensures Sorted(s[..k])
  {
  }

  lemma SnocCancel(a: seq<Note>, m: Note, b: seq<Note>, n: Note)
    requires a + [m] == b + [n]
    ensures a == b && m == n
  {
    assert |a| == |b|;
    assert m == (a + [m])[|a|] && n == (b + [n])[|b|];
    assert a == (a + [m])[..|a|] && b == (b + [n])[..|b|];
  }

  /** Two sorted lists that agree, date by date, on their notes and their order are the same list. */
  lemma {:induction false} SortedGroupsDetermine(u: seq<Note>, v: seq<Note>)
    requires Sorted(u) && Sorted(v)
    requires forall d :: WithDate(u, d) == WithDate(v, d)
    ensures u == v
    decreases |u| + |v|
  {
    if u == [] || v == [] {
      if u != [] {
        WithDateHasEach(u, 0);
      } else if v != [] {
        WithDateHasEach(v, 0);
      }
    } else {
      var uInit, m := u[..|u| - 1], u[|u| - 1];
      var vInit, n := v[..|v| - 1], v[|v| - 1];
      assert u == uInit + [m] && v == vInit + [n];
      LastDatesAgree(u, v);
      WithDateSnoc(uInit, m, m.date);
      WithDateSnoc(vInit, n, m.date);
      SnocCancel(WithDate(uInit, m.date), m, WithDate(vInit, m.date), n);
      forall d
        ensures WithDate(uInit, d) == WithDate(vInit, d)
      {
        if d != m.date {
          assert WithDate(uInit + [m], d) == WithDate(vInit + [n], d);
          WithDateSnoc(uInit, m, d);
          WithDateSnoc(vInit, n, d);
        }
      }
      SortedPrefix(u, |u| - 1);
      SortedPrefix(v, |v| - 1);
      SortedGroupsDetermine(uInit, vInit);
    }
  }

  lemma LastDatesAgree(u: seq<Note>, v: seq<Note>)
    requires Sorted(u) && Sorted(v) && u != [] && v != []
    requires forall d :: WithDate(u, d) == WithDate(v, d)
    ensures u[|u| - 1].date == v[|v| - 1].date
  {
    var m, n := u[|u| - 1], v[|v| - 1];
    WithDateHasEach(u, |u| - 1);
    WithDateMembers(v, m.date);
    MemberNotAfterLast(v, m);
    WithDateHasEach(v, |v| - 1);
    WithDateMembers(u, n.date);
    MemberNotAfterLast(u, n);
  }

  /**
    Any sorted list that keeps, for every date, the notes of `s` with that date in their
    order in `s` is `SortByDate(s)`: the insertion sort gives what every stable sort gives.
  */
  lemma StableSortUnique(s: seq<Note>, t: seq<Note>)
    requires Sorted(t)
    requires forall d :: WithDate(t, d) == WithDate(s, d)
    ensures t == SortByDate(s)
  {
    SortByDateSorted(s);
    forall d
      ensures WithDate(SortByDate(s), d) == WithDate(t, d)
    {
      SortByDateStable(s, d);
    }
    SortedGroupsDetermine(SortByDate(s), t);
  }

  /**
    Appending a note to a sorted list and sorting inserts it after every note not later
    than it: the list grows by one, stays sorted, and the new note is the last of its date.
  */
  lemma AppendThenSort(s: seq<Note>, x: Note)
    requires Sorted(s)
    ensures SortByDate(s + [x]) == Insert(s, x)
    ensures Sorted(SortByDate(s + [x])) && |SortByDate(s + [x])| == |s| + 1
    ensures multiset(SortByDate(s + [x])) == multiset(s) + multiset{x}
    ensures WithDate(SortByDate(s + [x]), x.date) == WithDate(s, x.date) + [x]
  {
    assert (s + [x])[..|s|] == s;
    SortedFixpoint(s);
    InsertSorted(s, x);
    InsertPermutes(s, x);
    SortByDateStable(s + [x], x.date);
    WithDateConcat(s, [x], x.date);
  }

  /**
    Sorting `u + [e] + v`, where `u + v` is sorted, only moves `e`: the other notes stay in
    their order.
  */
  lemma {:induction false} ReinsertSplits(u: seq<Note>, e: Note, v: seq<Note>) returns (q: nat)
    requires Sorted(u + v)
    ensures q <= |u + v| && SortByDate(u + [e] + v) == (u + v)[..q] + [e] + (u + v)[q..]
  {
    if v == [] {
      assert u + v == u && u + [e] + v == u + [e];
      SortByDateSnoc(u, e);
      SortedFixpoint(u);
      q := InsertSplits(u, e);
    } else {
      var v', x := v[..|v| - 1], v[|v| - 1];
      var w := u + v';
      assert u + v == w + [x];
      assert (u + v)[..|w|] == w;
      SortedPrefix(u + v, |w|);
      var q0 := ReinsertSplits(u, e, v');
      assert u + [e] + v == (u + [e] + v') + [x];
      SortByDateSnoc(u + [e] + v', x);
      if w != [] {
        assert (u + v)[|w| - 1] == w[|w| - 1] && (u + v)[|w|] == x;
      }
      q := InsertAfterSplit(w, q0, e, x);
    }
  }

  /** One step of `ReinsertSplits`: inserting a note that is not earlier than any note of `w`. */
  lemma InsertAfterSplit(w: seq<Note>, q: int, e: Note, x: Note) returns (q': nat)
    requires w == [] || w[|w| - 1].date <= x.date
    requires 0 <= q <= |w|
    ensures q' <= |w + [x]|
    ensures Insert(w[..q] + [e] + w[q..], x) == (w + [x])[..q'] + [e] + (w + [x])[q'..]
  {
    if q < |w| {
      InsertAfterLastOfW(w, q, e, x);
      q' := q;
    } else if e.date <= x.date {
      InsertAfterE(w, e, x);
      q' := |w|;
    } else {
      InsertBeforeE(w, e, x);
      q' := |w| + 1;
    }
  }

  lemma InsertAfterLastOfW(w: seq<Note>, q: int, e: Note, x: Note)
    requires 0 <= q < |w| && w[|w| - 1].date <= x.date
    ensures Insert(w[..q] + [e] + w[q..], x) == (w + [x])[..q] + [e] + (w + [x])[q..]
  {
    var t := w[..q] + [e] + w[q..];
    assert t[|t| - 1] == w[|w| - 1];
    assert Insert(t, x) == t + [x];
    assert (w + [x])[..q] == w[..q] && (w + [x])[q..] == w[q..] + [x];
  }

  lemma InsertAfterE(w: seq<Note>, e: Note, x: Note)
    requires e.date <= x.date
    ensures Insert(w[..|w|] + [e] + w[|w|..], x) == (w + [x])[..|w|] + [e] + (w + [x])[|w|..]
  {
    assert w[..|w|] + [e] + w[|w|..] == w + [e];
    InsertStop(w + [e], x);
    assert (w + [x])[..|w|] == w && (w + [x])[|w|..] == [x];
  }

  lemma InsertBeforeE(w: seq<Note>, e: Note, x: Note)
    requires (w == [] || w[|w| - 1].date <= x.date) && e.date > x.date
    ensures Insert(w[..|w|] + [e] + w[|w|..], x) == (w + [x])[..|w| + 1] + [e] + (w + [x])[|w| + 1..]
  {
    assert w[..|w|] + [e] + w[|w|..] == w + [e];
    InsertSnocLater(w, e, x);
    assert Insert(w + [e], x) == Insert(w, x) + [e];
    InsertStop(w, x);
    assert Insert(w, x) == w + [x];
    assert (w + [x])[..|w| + 1] == w + [x] && (w + [x])[|w| + 1..] == [];
  }

  /** Removing a note from a sorted list leaves it sorted. */
  lemma RemoveKeepsSorted(s: seq<Note>, p: int)
    requires Sorted(s) && 0 <= p < |s|
    ensures Sorted(s[..p] + s[p + 1..])
  {
    var r := s[..p] + s[p + 1..];
    forall i, j | 0 <= i < j < |r| ensures r[i].date <= r[j].date {
      var i', j' := if i < p then i else i + 1, if j < p then j else j + 1;
      assert r[i] == s[i'] && r[j] == s[j'];
    }
  }

  /**
    Changing the date of the note at `p` of a sorted list and sorting again moves only that
    note: the result is the other notes, in their old order, with the edited note spliced in.
  */
  lemma DateEditMovesOnlyThatNote(s: seq<Note>, p: int, d: Date)
    requires Sorted(s) && 0 <= p < |s|
    ensures var e, rest := s[p].(date := d), s[..p] + s[p + 1..];
            exists q :: 0 <= q <= |rest| && SortByDate(s[p := e]) == rest[..q] + [e] + rest[q..]
  {
    var e, u, v := s[p].(date := d), s[..p], s[p + 1..];
    RemoveKeepsSorted(s, p);
    assert s[p := e] == u + [e] + v;
    var q := ReinsertSplits(u, e, v);
    assert u + v == s[..p] + s[p + 1..];
  }

  /** What a stable sort promises, for the insertion sort. */
  lemma SortByDateIsStableSort(s: seq<Note>)
    ensures Sorted(SortByDate(s)) && multiset(SortByDate(s)) == multiset(s)
    ensures forall d :: WithDate(SortByDate(s), d) == WithDate(s, d)
  {
    SortByDateSorted(s);
    SortByDatePermutes(s);
    forall d
      ensures WithDate(SortByDate(s), d) == WithDate(s, d)
    {
      SortByDateStable(s, d);
    }
  }

  lemma InsertStepBack(r: seq<Note>, j: int, x: Note)
    requires 0 < j <= |r| && r[j - 1].date > x.date
    ensures Insert(r[..j], x) + r[j..] == Insert(r[..j - 1], x) + r[j - 1..]
  {
    assert r[..j] == r[..j - 1] + [r[j - 1]];
    InsertSnocLater(r[..j - 1], r[j - 1], x);
    assert r[j - 1..] == [r[j - 1]] + r[j..];
  }

  lemma InsertStop(s: seq<Note>, x: Note)
    requires s == [] || s[|s| - 1].date <= x.date
    ensures Insert(s, x) == s + [x]
  {
  }

  /** One pass of the insertion sort: walk back past the notes later than `x`, then put `x` there. */
  method InsertNote(r: seq<Note>, x: Note) returns (t: seq<Note>)
    ensures t == Insert(r, x)
  {
    var j := |r|;
    assert r[..j] == r && r[j..] == [];
    while j > 0 && CompareTo(r[j - 1], x) > 0
      invariant 0 <= j <= |r|
      invariant Insert(r, x) == Insert(r[..j], x) + r[j..]
    {
      InsertStepBack(r, j, x);
      j := j - 1;
    }
    InsertStop(r[..j], x);
    t := r[..j] + [x] + r[j..];
  }

  /** `Collections.sort` on the note list, as an insertion sort by `compareTo`. */
  method StableSort(s: seq<Note>) returns (r: seq<Note>)
    ensures r == SortByDate(s)
    ensures Sorted(r) && multiset(r) == multiset(s)
    ensures forall d :: WithDate(r, d) == WithDate(s, d)
  {
    r := [];
    var i := 0;
    while i < |s|
      invariant 0 <= i <= |s|
      invariant r == SortByDate(s[..i])
    {
      assert s[..i + 1] == s[..i] + [s[i]];
      SortByDateSnoc(s[..i], s[i]);
      r := InsertNote(r, s[i]);
      i := i + 1;
    }
    assert s[..i] == s;
    SortByDateIsStableSort(s);
  }
}

=== FILE: wrappers.dfy ===
/** The optional value used wherever the program may come back with nothing. */
module Wrappers {

  datatype Option<+T> = None | Some(value: T)
}
